=== FILE: README.md ===
# MoveSlowAndClear speed-limit lifecycle, in Dafny

This project models the `MoveSlowAndClear` recovery behaviour of the ROS
navigation stack. When the robot is stuck, the behaviour does two things:

- It clears a square of side `2 * clearing_distance` around the robot in the
  global costmap and in the local costmap, each square around that costmap's
  own pose.
- It caps the planner's translational and rotational speeds at
  `limited_trans_speed` / `limited_rot_speed`. A 0.1 s distance timer lifts
  the cap once the robot is `limited_distance` away from the global pose
  recorded by the most recent runBehavior call. Lifting is done on a
  separate thread (`removeSpeedLimit`), which puts back the caps saved when
  the limit began.

The behaviour's member variables are one immutable `State` record. Each entry
point is a pure transition on it:

- `Initialize`: initialize.
- `RunBehavior`: runBehavior.
- `DistanceCheck`: one timer tick, with getSqDistance.
- `RunWorker`: the spawned thread completing.
- `RemoveSpeedLimit`: removeSpeedLimit.

Values the source gets from ROS are arguments of the transition:

- robot poses;
- the planner's `max_trans_vel` / `max_rot_vel`, as `Option<real>`, `None` when the read fails;
- the private parameters, `None` when unset.

C++ members that are never initialised (`old_trans_speed_`, `old_rot_speed_`,
`speed_limit_pose_`) are `None` until first assigned. Coordinates and speeds
are `real`.

Files:

- `wrappers.dfy`: `Option`.
- `geometry.dfy`: poses, the clearing polygon, the source's polygon loop, and squared distance.
- `move_slow_and_clear.dfy`: the state machine, its invariant, and the lifecycle lemmas.
- `scenarios.dfy`: the default configuration walked through standing still,
  moving away, clearing, re-triggering, and a failed read.

Points where the code's behaviour is easy to misread:

- runBehavior creates a new distance timer on every call, whether or not one
  is already running; the new timer replaces the old one. In the model, every
  initialised trigger leaves the timer running.
- The previous restoration thread is joined by the timer callback
  (distanceCheck) right before it spawns a new one, not by the trigger. In
  the model, a firing tick first completes any pending worker, and
  `RunBehavior` leaves `workerPending` alone.
- removeSpeedLimit is not guarded by `limit_set_`. It sends the saved caps
  again even when no limit is in force. In a valid state with no limit in
  force this leaves the state unchanged (`RemoveSpeedLimitNoOpWhenUnlimited`),
  and restoring twice is the same as restoring once
  (`RemoveSpeedLimitIdempotent`).
- The saved speeds are not cleared when a limit ends. They persist and are
  overwritten only by the next first trigger, and only by reads that succeed.

`SetRobotSpeed` is setRobotSpeed reduced to its effect on the applied caps.
`GetParam` is the out-parameter behaviour of `getParam` at lines 119 and 124:
the variable is written only when the read succeeds.

Two interleavings are worth knowing about. The first is allowed by the atomic
model and stated as `PendingWorkerLiftsRetrigger`:

1. A tick spawns the worker.
2. runBehavior runs again before the worker takes the mutex.
3. The worker then lifts the new episode's limit, while that episode's distance
   timer keeps running.

The second needs the tick to be split, because distanceCheck takes no lock.
The split halves are `TickSpawn` (lines 158-163) and `TickStop` (line 165),
and `TickInterleavedWithTrigger` states the outcome:

1. A tick spawns the worker at line 163.
2. The worker runs removeSpeedLimit to completion.
3. runBehavior runs in full, sets `limit_set_` and assigns a new timer at line 136.
4. The tick reaches line 165 and stops that new timer.

The limit is then in force with no timer and no pending worker to lift it,
a state the invariant `Valid` excludes.

## Model

| member | source | states |
|---|---|---|
| Geometry.ClearingPolygon | move_slow_and_clear/src/move_slow_and_clear.cpp:89-107 | four vertices, each at squared distance 2d² from the pose (distance d·√2); consecutive vertices share an x or a y coordinate, so the walk is an axis-aligned square; both diagonals have the pose as midpoint; the first diagonal spans 2d in x and y |
| Geometry.BuildPolygons | move_slow_and_clear/src/move_slow_and_clear.cpp:87-107 | the source's loop over i = -1, 1, pushing (x+i·d, y+i·d) then (x+i·d, y−i·d) for each frame, produces exactly the clearing polygon of the global pose and of the local pose |
| Geometry.ClearingPolygonInverse | move_slow_and_clear/src/move_slow_and_clear.cpp:90-107 | the pose and the clearing distance can be read back from the polygon (centre of its diagonal, half its side) |
| Geometry.ClearingPolygonInjective | move_slow_and_clear/src/move_slow_and_clear.cpp:90-107 | two polygons are equal exactly when they were built from the same pose and distance |
| Geometry.ClearingPolygonCorners | move_slow_and_clear/src/move_slow_and_clear.cpp:90-107 | each of the four sign combinations (±d, ±d) offset by the pose is a vertex |
| Geometry.SqNormZero | move_slow_and_clear/src/move_slow_and_clear.cpp:149 | a sum of two squares is never negative and is 0 only when both components are 0 |
| Geometry.SqDistance | move_slow_and_clear/src/move_slow_and_clear.cpp:139-150 | the squared distance between current and reference pose is never negative, and is 0 exactly when the robot is at the reference pose |
| MoveSlowAndClear.Constructed | move_slow_and_clear/src/move_slow_and_clear.cpp:45-46 | a constructed behaviour is uninitialised, unlimited, with no timer and no worker, and satisfies the invariant |
| MoveSlowAndClear.Initialize | move_slow_and_clear/src/move_slow_and_clear.cpp:53-72 | each parameter takes the value set or else its default (0.5, 0.25, 0.45, 0.3, "DWAPlannerROS"); the behaviour becomes initialised; nothing of the speed-limit state changes |
| MoveSlowAndClear.SetRobotSpeed | move_slow_and_clear/src/move_slow_and_clear.cpp:176-193 | the applied caps become exactly the given pair, and nothing else of the behaviour changes |
| MoveSlowAndClear.RunBehavior | move_slow_and_clear/src/move_slow_and_clear.cpp:74-137 | uninitialised: no state change and nothing cleared; initialised: each costmap gets the clearing square of its own pose, the reference pose becomes the global pose, the reduced caps are applied, the flag is set and the timer runs; saved speeds change only on a first trigger and only by a successful read; the invariant is kept |
| MoveSlowAndClear.DistanceCheck | move_slow_and_clear/src/move_slow_and_clear.cpp:152-167 | a tick fires iff the timer runs and limited_distance² ≤ squared distance from the reference pose; a non-firing tick changes nothing; a firing tick stops the timer, completes any previous worker and leaves a new one pending; the invariant is kept |
| MoveSlowAndClear.TickSpawn | move_slow_and_clear/src/move_slow_and_clear.cpp:158-163 | the first half of a firing tick: a previous worker completes its restoration (limit cleared, saved caps applied), a new worker is pending, and the timer is not yet stopped |
| MoveSlowAndClear.TickStop | move_slow_and_clear/src/move_slow_and_clear.cpp:165 | the second half of a firing tick: whichever timer is current at that moment is stopped, and nothing else of the behaviour changes |
| MoveSlowAndClear.RemoveSpeedLimit | move_slow_and_clear/src/move_slow_and_clear.cpp:169-174 | the applied caps become the saved speeds and the flag is cleared; nothing else changes |
| MoveSlowAndClear.RunWorker | move_slow_and_clear/src/move_slow_and_clear.cpp:163-174 | a pending restoration thread runs removeSpeedLimit to completion and is no longer pending; with none pending nothing changes; the invariant is kept |
| MoveSlowAndClear.Step | move_slow_and_clear/src/move_slow_and_clear.cpp:53-174 | with each tick taken as one atomic step, every entry point preserves the invariant: a limit in force has a running timer or pending worker to lift it, and with no limit in force the last caps sent are the saved speeds |
| MoveSlowAndClear.Run | move_slow_and_clear/src/move_slow_and_clear.cpp:53-174 | with each tick taken as one atomic step, any sequence of initialisations, triggers, ticks and worker runs from a valid state ends in a valid state, so a limit is never left without something to lift it |
| MoveSlowAndClear.TriggersKeepSavedSpeeds | move_slow_and_clear/src/move_slow_and_clear.cpp:116-135 | any number of triggers while limited keep the saved speeds, whatever read outcomes they carry (line 117 skips the reads), and keep the limit in force |
| MoveSlowAndClear.RestoreAfterTriggers | move_slow_and_clear/src/move_slow_and_clear.cpp:116-174 | round trip: from an unlimited state, a trigger, any further triggers and a restoration put back the caps the first trigger read; a failed read puts back the value saved before |
| MoveSlowAndClear.ClearingFramesIndependent | move_slow_and_clear/src/move_slow_and_clear.cpp:84-111 | the global polygon depends only on the global pose and the local polygon only on the local pose |
| MoveSlowAndClear.RemoveSpeedLimitIdempotent | move_slow_and_clear/src/move_slow_and_clear.cpp:169-174 | restoring twice gives the same state as restoring once |
| MoveSlowAndClear.RemoveSpeedLimitNoOpWhenUnlimited | move_slow_and_clear/src/move_slow_and_clear.cpp:169-174 | in a valid state with no limit in force and caps already sent, the unguarded restore changes nothing |
| MoveSlowAndClear.LimitLiftedAfterMoving | move_slow_and_clear/src/move_slow_and_clear.cpp:152-174 | in a valid limited state, once the robot is far enough, the next tick followed by the worker clears the limit, stops the timer and applies the saved caps |
| MoveSlowAndClear.TickAtReferencePose | move_slow_and_clear/src/move_slow_and_clear.cpp:139-167 | a tick at the reference pose releases the limit exactly when limited_distance is 0 |
| MoveSlowAndClear.PendingWorkerLiftsRetrigger | move_slow_and_clear/src/move_slow_and_clear.cpp:113-174 | a worker still pending when runBehavior fires again lifts the new limit while the new episode's timer keeps running |
| MoveSlowAndClear.TickInterleavedWithTrigger | move_slow_and_clear/src/move_slow_and_clear.cpp:113-174 | if the worker and a whole runBehavior run between a firing tick's spawn (line 163) and its timer stop (line 165), the new limit is left in force with no timer and no pending worker, and the invariant is broken |
| Scenarios.Fresh | move_slow_and_clear/src/move_slow_and_clear.cpp:60-71 | with no parameters set, the configuration is (0.5, 0.25, 0.45, 0.3, "DWAPlannerROS") |
| Scenarios.TriggerFromFresh | move_slow_and_clear/src/move_slow_and_clear.cpp:114-136 | a trigger on the fresh behaviour applies caps (0.25, 0.45), records the pose and starts the timer |
| Scenarios.StandingStillKeepsLimit | move_slow_and_clear/src/move_slow_and_clear.cpp:152-167 | with limited_distance 0.3, three ticks at the reference pose fire nothing and change nothing |
| Scenarios.MovingAwayReleasesOnce | move_slow_and_clear/src/move_slow_and_clear.cpp:152-174 | after moving 0.35 m from the reference pose, the next tick fires and stops the timer, a later tick does nothing, and the worker restores the saved caps |
| Scenarios.ReleaseFollowedByWorker | move_slow_and_clear/src/move_slow_and_clear.cpp:152-174 | a firing tick followed by any tick and the worker: exactly one release, then the saved caps |
| Scenarios.ClearingAroundEachFrame | move_slow_and_clear/src/move_slow_and_clear.cpp:89-111 | with clearing distance 0.5 and poses (10, 10) and (2, −3), the global polygon is (9.5, 9.5), (9.5, 10.5), (10.5, 10.5), (10.5, 9.5) and the local one the same square around (2, −3) |
| Scenarios.BackToBackTriggers | move_slow_and_clear/src/move_slow_and_clear.cpp:116-131 | a second trigger, made while the planner holds the reduced caps, performs no read (line 117); it keeps the first trigger's saved speeds and takes the new reference pose |
| Scenarios.FailedReadStillLimits | move_slow_and_clear/src/move_slow_and_clear.cpp:119-136 | a failed max_trans_vel read still imposes the limit and starts the timer, and leaves that saved speed unassigned |

## Left out

- ROS parameter server reads (`param`, `getParam`): these are arguments of `Initialize` and `RunBehavior`, not calls.
- The shell commands in setRobotSpeed (`rosrun dynamic_reconfigure dynparam set …`) and their logged failures: only their effect is modelled, the applied caps becoming the given pair.
- Boost thread creation, join and delete, and the mutex: runBehavior and removeSpeedLimit are atomic transitions, and a spawned thread is a `workerPending` flag whose completion is the `RunWorker` transition.
- Timer scheduling and its 0.1 s period: the timer is a running flag, and a tick is the `DistanceCheck` transition.
- MoveSlowAndClear.Run: the invariant is proved with each tick (`DistanceCheck`) taken as one atomic step. distanceCheck takes no lock, so in the program the window between spawning the worker (line 163) and stopping the timer (line 165) can break it; `TickInterleavedWithTrigger` states that interleaving, and `Run` does not cover it.
- getSqDistance reading `speed_limit_pose_` without the mutex: a torn read of the reference pose is not represented.
- tf poses: only the position is modelled, not the orientation or the timestamp. Polygon points carry no z coordinate.
- Costmap calls (`getRobotPose`, `setConvexPolygonCost`): poses are inputs, and the clearing is the pair of polygons returned by `RunBehavior`.
- The planner NodeHandle namespace prefix "~/": only the namespace name is kept.
- Logging, the pluginlib registration macro, and the destructor.
- Floating-point rounding: coordinates and speeds are exact reals.

=== FILE: geometry.dfy ===
/** Planar geometry of the move-slow-and-clear recovery: the square region
    cleared around the robot in each costmap, and the squared distance the
    robot has travelled since the speed limit was imposed. */
module Geometry {

  /** The robot's position in one costmap frame. The orientation of the tf
      pose plays no part in this behaviour and is not modelled. */
  datatype Pose = Pose(x: real, y: real)

  /** A vertex of a clearing polygon (a geometry_msgs point whose z stays 0). */
  datatype Point = Point(x: real, y: real)

  /** Squared length of the vector (dx, dy). */
  function SqNorm(dx: real, dy: real): real
  {
    dx * dx + dy * dy
  }

  /** A vector with a non-zero first component has positive squared length. */
  lemma SqNormPositive(dx: real, dy: real)
    requires dx != 0.0
    ensures SqNorm(dx, dy) > 0.0
  {
    calc {
      SqNorm(dx, dy);
    ==
      dx * dx + dy * dy;
    >=
      dx * dx;
    >
      0.0;
    }
  }

  /** A squared length is never negative, and is zero only for the zero vector. */
  lemma SqNormZero(dx: real, dy: real)
    ensures SqNorm(dx, dy) >= 0.0
    ensures SqNorm(dx, dy) == 0.0 <==> dx == 0.0 && dy == 0.0
  {
    if dx != 0.0 {
      SqNormPositive(dx, dy);
    } else if dy != 0.0 {
      SqNormPositive(dy, dx);
    }
  }

  /** Squared Euclidean distance between the current pose and the reference
      pose recorded when the limit was imposed (getSqDistance). It is kept
      squared so that no square root is needed. */
  function SqDistance(current: Pose, reference: Pose): (r: real)
    ensures r >= 0.0
    ensures r == 0.0 <==> current == reference
  {
    SqNormZero(reference.x - current.x, reference.y - current.y);
    SqNorm(reference.x - current.x, reference.y - current.y)
  }

  /** Squared distance from a pose to a polygon vertex. */
  function SqDistanceTo(p: Pose, q: Point): real
  {
    SqNorm(q.x - p.x, q.y - p.y)
  }

  /** The corner of the clearing square in direction (sx, sy), sx, sy in {-1, 1}. */
  function Corner(p: Pose, d: real, sx: real, sy: real): Point
  {
    Point(p.x + sx * d, p.y + sy * d)
  }

  /** The clearing polygon submitted to a costmap for pose `p` and clearing
      distance `d`: the square of side 2d centred on `p`, walked corner by
      corner starting from (-d, -d). */
  function ClearingPolygon(p: Pose, d: real): (poly: seq<Point>)
    ensures |poly| == 4
    ensures forall k :: 0 <= k < |poly| ==> SqDistanceTo(p, poly[k]) == 2.0 * d * d
    ensures poly[0].x == poly[1].x && poly[2].x == poly[3].x
    ensures poly[1].y == poly[2].y && poly[3].y == poly[0].y
    ensures poly[0].x + poly[2].x == 2.0 * p.x && poly[0].y + poly[2].y == 2.0 * p.y
    ensures poly[1].x + poly[3].x == 2.0 * p.x && poly[1].y + poly[3].y == 2.0 * p.y
    ensures poly[2].x - poly[0].x == 2.0 * d && poly[2].y - poly[0].y == 2.0 * d
  {
    [Corner(p, d, -1.0, -1.0), Corner(p, d, -1.0, 1.0), Corner(p, d, 1.0, 1.0), Corner(p, d, 1.0, -1.0)]
  }

  /** The centre of a four-vertex polygon, read off its first diagonal. */
  function Centre(poly: seq<Point>): Pose
    requires |poly| == 4
  {
    Pose((poly[0].x + poly[2].x) / 2.0, (poly[0].y + poly[2].y) / 2.0)
  }

  /** Half the side of a four-vertex axis-aligned square. */
  function HalfSide(poly: seq<Point>): real
    requires |poly| == 4
  {
    (poly[2].x - poly[0].x) / 2.0
  }

  /** The clearing polygon determines the pose and the clearing distance it
      was built from. */
  lemma ClearingPolygonInverse(p: Pose, d: real)
    ensures Centre(ClearingPolygon(p, d)) == p
    ensures HalfSide(ClearingPolygon(p, d)) == d
  {
  }

  lemma ClearingPolygonInjective(p: Pose, d: real, q: Pose, e: real)
    ensures ClearingPolygon(p, d) == ClearingPolygon(q, e) <==> p == q && d == e
  {
    if ClearingPolygon(p, d) == ClearingPolygon(q, e) {
      ClearingPolygonInverse(p, d);
      ClearingPolygonInverse(q, e);
    }
  }

  /** The vertices are exactly the four sign combinations (+-d, +-d) offset
      by the pose. */
  lemma ClearingPolygonCorners(p: Pose, d: real, sx: real, sy: real)
    requires sx == 1.0 || sx == -1.0
    requires sy == 1.0 || sy == -1.0
    ensures Corner(p, d, sx, sy) in ClearingPolygon(p, d)
  {
  }

  /** The vertices the source's loop has pushed for one pose when its
      counter has reached `i`: two per completed iteration. */
  function LoopPrefix(p: Pose, d: real, i: int): seq<Point>
    requires i == -1 || i == 1 || i == 3
  {
    ClearingPolygon(p, d)[..i + 1]
  }

  /** The polygon construction exactly as runBehavior writes it: one loop
      with i = -1, 1, each iteration pushing the vertex (x + i d, y + i d)
      and then (x + i d, y - i d) for the global and for the local pose. */
  method BuildPolygons(globalPose: Pose, localPose: Pose, d: real)
    returns (globalPoly: seq<Point>, localPoly: seq<Point>)
    ensures globalPoly == ClearingPolygon(globalPose, d)
    ensures localPoly == ClearingPolygon(localPose, d)
  {
    globalPoly := [];
    localPoly := [];
    var i: int := -1;
    while i <= 1
      invariant i == -1 || i == 1 || i == 3
      invariant globalPoly == LoopPrefix(globalPose, d, i)
      invariant localPoly == LoopPrefix(localPose, d, i)
      decreases 3 - i
    {
      var r := i as real;
      globalPoly := globalPoly + [Point(globalPose.x + r * d, globalPose.y + r * d)];
      globalPoly := globalPoly + [Point(globalPose.x + r * d, globalPose.y + -1.0 * r * d)];
      localPoly := localPoly + [Point(localPose.x + r * d, localPose.y + r * d)];
      localPoly := localPoly + [Point(localPose.x + r * d, localPose.y + -1.0 * r * d)];
      i := i + 2;
    }
  }
}

=== FILE: move_slow_and_clear.dfy ===
/** The speed-limit lifecycle of the MoveSlowAndClear recovery behaviour.

    The behaviour's member variables become one immutable `State` record and
    each entry point becomes a pure transition on it:
      - `Initialize`       reads the configuration (initialize);
      - `RunBehavior`      clears both costmaps and imposes the limit (runBehavior);
      - `DistanceCheck`    one tick of the 0.1 s distance timer (distanceCheck);
      - `RunWorker`        the spawned thread running removeSpeedLimit;
      - `RemoveSpeedLimit` puts the saved caps back (removeSpeedLimit).
    The mutex makes runBehavior and removeSpeedLimit atomic with respect to
    each other, so each is one transition here. Everything the source asks of
    ROS (parameter reads, robot poses) is an argument of the transition. */
module MoveSlowAndClear {
  import opened Wrappers
  import opened Geometry

  const DefaultClearingDistance: real := 0.5
  const DefaultLimitedTransSpeed: real := 0.25
  const DefaultLimitedRotSpeed: real := 0.45
  const DefaultLimitedDistance: real := 0.3
  const DefaultPlannerNamespace: string := "DWAPlannerROS"

  /** Parameters read once by initialize. */
  datatype Config = Config(
    clearingDistance: real,
    limitedTransSpeed: real,
    limitedRotSpeed: real,
    limitedDistance: real,
    plannerNamespace: string)

  /** What the private parameter namespace holds at initialize; None where a
      parameter is not set and the default applies. */
  datatype ConfigReads = ConfigReads(
    clearingDistance: Option<real>,
    limitedTransSpeed: Option<real>,
    limitedRotSpeed: Option<real>,
    limitedDistance: Option<real>,
    plannerNamespace: Option<string>)

  /** A translational and a rotational speed cap as handed to setRobotSpeed.
      A None component is a double that was never assigned, whose value the
      source leaves indeterminate. */
  datatype Caps = Caps(trans: Option<real>, rot: Option<real>)

  /** The behaviour's member variables.
      - config:         None until initialize has run (initialized_ false);
      - limitSet:       limit_set_;
      - oldTrans/oldRot: old_trans_speed_/old_rot_speed_, None until first assigned;
      - speedLimitPose: speed_limit_pose_, None until first assigned;
      - applied:        the caps of the last setRobotSpeed call, None before any;
      - timerRunning:   whether distance_check_timer_ is ticking;
      - workerPending:  a removeSpeedLimit thread has been spawned and has not run yet. */
  datatype State = State(
    config: Option<Config>,
    limitSet: bool,
    oldTrans: Option<real>,
    oldRot: Option<real>,
    speedLimitPose: Option<Pose>,
    applied: Option<Caps>,
    timerRunning: bool,
    workerPending: bool)
  {
    /** The caps that removeSpeedLimit will put back. */
    function SavedCaps(): Caps
    {
      Caps(oldTrans, oldRot)
    }
  }

  /** The reduced caps the configuration imposes. */
  function LimitedCaps(c: Config): Caps
  {
    Caps(Some(c.limitedTransSpeed), Some(c.limitedRotSpeed))
  }

  /** What runBehavior obtains from outside: the robot pose in the global and
      in the local costmap, and the outcome of reading max_trans_vel and
      max_rot_vel from the planner's namespace (None when the read fails).
      The two read outcomes are used only when no limit is in force; a
      trigger while limited performs no read. */
  datatype TriggerInput = TriggerInput(
    globalPose: Pose,
    localPose: Pose,
    transRead: Option<real>,
    rotRead: Option<real>)

  /** The polygons submitted to setConvexPolygonCost as free space. */
  datatype Clearing = Clearing(globalPolygon: seq<Point>, localPolygon: seq<Point>)

  datatype TriggerOutcome = TriggerOutcome(next: State, clearing: Option<Clearing>)

  datatype TickOutcome = TickOutcome(next: State, fired: bool)

  /** The reachable-state invariant of the behaviour. A limit in force always
      has something that will lift it (the timer or a pending worker), and
      whenever no limit is in force the caps last sent are the saved ones: the
      behaviour never leaves the reduced caps behind. */
  predicate Valid(s: State)
  {
    && (s.timerRunning ==> s.config.Some? && s.speedLimitPose.Some?)
    && (s.workerPending ==> s.config.Some?)
    && (s.limitSet ==> s.config.Some? && s.speedLimitPose.Some? && s.applied.Some?)
    && (s.limitSet ==> s.timerRunning || s.workerPending)
    && (!s.limitSet && s.applied.Some? ==> s.applied == Some(s.SavedCaps()))
  }

  /** The freshly constructed behaviour: not initialised, not limited, no
      timer, no worker thread. */
  function Constructed(): (s: State)
    ensures Valid(s)
    ensures s.config.None? && !s.limitSet && !s.timerRunning && !s.workerPending
    ensures s.applied.None?
  {
    State(None, false, None, None, None, None, false, false)
  }

  /** initialize: read the four numeric parameters and the planner namespace,
      each falling back to its default, and mark the behaviour initialised.
      The speed-limit state is not touched. */
  function Initialize(s: State, params: ConfigReads): (r: State)
    ensures r.config.Some?
    ensures params.clearingDistance.Some? ==> r.config.value.clearingDistance == params.clearingDistance.value
    ensures params.clearingDistance.None? ==> r.config.value.clearingDistance == DefaultClearingDistance
    ensures params.limitedTransSpeed.Some? ==> r.config.value.limitedTransSpeed == params.limitedTransSpeed.value
    ensures params.limitedTransSpeed.None? ==> r.config.value.limitedTransSpeed == DefaultLimitedTransSpeed
    ensures params.limitedRotSpeed.Some? ==> r.config.value.limitedRotSpeed == params.limitedRotSpeed.value
    ensures params.limitedRotSpeed.None? ==> r.config.value.limitedRotSpeed == DefaultLimitedRotSpeed
    ensures params.limitedDistance.Some? ==> r.config.value.limitedDistance == params.limitedDistance.value
    ensures params.limitedDistance.None? ==> r.config.value.limitedDistance == DefaultLimitedDistance
    ensures params.plannerNamespace.Some? ==> r.config.value.plannerNamespace == params.plannerNamespace.value
    ensures params.plannerNamespace.None? ==> r.config.value.plannerNamespace == DefaultPlannerNamespace
    ensures r.(config := s.config) == s
    ensures Valid(s) ==> Valid(r)
  {
    var c := Config(
      params.clearingDistance.GetOr(DefaultClearingDistance),
      params.limitedTransSpeed.GetOr(DefaultLimitedTransSpeed),
      params.limitedRotSpeed.GetOr(DefaultLimitedRotSpeed),
      params.limitedDistance.GetOr(DefaultLimitedDistance),
      params.plannerNamespace.GetOr(DefaultPlannerNamespace));
    s.(config := Some(c))
  }

  /** ros::NodeHandle::getParam writes its output argument only when the
      parameter exists; otherwise the variable keeps its previous value. */
  function GetParam(previous: Option<real>, read: Option<real>): Option<real>
  {
    if read.Some? then read else previous
  }

  /** setRobotSpeed, reduced to its effect: the planner's caps become the
      given pair. The shell commands it issues and their failures are not
      modelled. */
  function SetRobotSpeed(s: State, caps: Caps): (r: State)
    ensures r.applied == Some(caps)
    ensures r.(applied := s.applied) == s
  {
    s.(applied := Some(caps))
  }

  /** runBehavior. Uninitialised, it does nothing. Otherwise it submits one
      clearing square per costmap, each around that costmap's own pose; saves
      the planner's current caps only if no limit is in force yet; records the
      global pose as the reference; imposes the reduced caps; sets the flag
      and (re)starts the distance timer. */
  function RunBehavior(s: State, input: TriggerInput): (r: TriggerOutcome)
    ensures s.config.None? ==> r.next == s && r.clearing.None?
    ensures s.config.Some? ==>
      r.clearing == Some(Clearing(
        ClearingPolygon(input.globalPose, s.config.value.clearingDistance),
        ClearingPolygon(input.localPose, s.config.value.clearingDistance)))
    ensures s.config.Some? ==>
      && r.next.limitSet
      && r.next.timerRunning
      && r.next.speedLimitPose == Some(input.globalPose)
      && r.next.applied == Some(LimitedCaps(s.config.value))
    // saved speeds are captured once per episode
    ensures s.limitSet ==> r.next.SavedCaps() == s.SavedCaps()
    // a read that fails leaves the saved speed as it was
    ensures input.transRead.None? ==> r.next.oldTrans == s.oldTrans
    ensures input.rotRead.None? ==> r.next.oldRot == s.oldRot
    ensures s.config.Some? && !s.limitSet && input.transRead.Some? ==> r.next.oldTrans == input.transRead
    ensures s.config.Some? && !s.limitSet && input.rotRead.Some? ==> r.next.oldRot == input.rotRead
    ensures r.next.config == s.config && r.next.workerPending == s.workerPending
    ensures Valid(s) ==> Valid(r.next)
  {
    match s.config
    case None => TriggerOutcome(s, None)
    case Some(c) =>
      var clearing := Clearing(
        ClearingPolygon(input.globalPose, c.clearingDistance),
        ClearingPolygon(input.localPose, c.clearingDistance));
      var saved :=
        if s.limitSet then s
        else s.(oldTrans := GetParam(s.oldTrans, input.transRead),
                oldRot := GetParam(s.oldRot, input.rotRead));
      var limited := SetRobotSpeed(saved.(speedLimitPose := Some(input.globalPose)), LimitedCaps(c));
      TriggerOutcome(limited.(limitSet := true, timerRunning := true), Some(clearing))
  }

  /** removeSpeedLimit: send the saved caps and clear the flag. It is not
      guarded by the flag, so it also runs when no limit is in force. */
  function RemoveSpeedLimit(s: State): (r: State)
    ensures !r.limitSet
    ensures r.applied == Some(s.SavedCaps())
    ensures r.(limitSet := s.limitSet, applied := s.applied) == s
  {
    SetRobotSpeed(s, s.SavedCaps()).(limitSet := false)
  }

  /** The removeSpeedLimit thread, once spawned, runs to completion. */
  function RunWorker(s: State): (r: State)
    ensures !r.workerPending
    ensures s.workerPending ==> !r.limitSet && r.applied == Some(s.SavedCaps())
    ensures s.workerPending ==> r.(limitSet := s.limitSet, applied := s.applied, workerPending := true) == s
    ensures !s.workerPending ==> r == s
    ensures Valid(s) ==> Valid(r)
  {
    if s.workerPending then RemoveSpeedLimit(s).(workerPending := false) else s
  }

  /** The condition on which a tick fires: the robot is at least the limited
      distance away from the reference pose, compared in squares. */
  predicate MovedFarEnough(c: Config, reference: Pose, current: Pose)
  {
    c.limitedDistance * c.limitedDistance <= SqDistance(current, reference)
  }

  /** The first half of a firing tick: join the previous restoration thread,
      which therefore completes its restoration first, and spawn a new one.
      The timer is still running at this point. */
  function TickSpawn(s: State): (r: State)
    ensures r.workerPending && r.timerRunning == s.timerRunning
    ensures s.workerPending ==> !r.limitSet && r.applied == Some(s.SavedCaps())
    ensures !s.workerPending ==> r.(workerPending := false) == s
    ensures r.config == s.config && r.SavedCaps() == s.SavedCaps()
    ensures r.speedLimitPose == s.speedLimitPose
  {
    RunWorker(s).(workerPending := true)
  }

  /** The second half of a firing tick: stop the distance timer. Whatever
      timer is current at that moment is the one stopped. */
  function TickStop(s: State): (r: State)
    ensures !r.timerRunning
    ensures r.(timerRunning := s.timerRunning) == s
  {
    s.(timerRunning := false)
  }

  /** One tick of the distance timer at the robot's current global pose. A
      stopped timer does not tick. When the robot has moved far enough the
      tick joins the previous worker, spawns a new one and stops the timer;
      the model takes these two halves as one atomic step. */
  function DistanceCheck(s: State, current: Pose): (r: TickOutcome)
    requires s.timerRunning ==> s.config.Some? && s.speedLimitPose.Some?
    ensures r.fired <==>
      s.timerRunning && MovedFarEnough(s.config.value, s.speedLimitPose.value, current)
    ensures !r.fired ==> r.next == s
    ensures r.fired ==> !r.next.timerRunning && r.next.workerPending
    ensures r.fired && s.workerPending ==> !r.next.limitSet && r.next.applied == Some(s.SavedCaps())
    ensures r.fired && !s.workerPending ==> r.next.(timerRunning := true, workerPending := false) == s
    ensures r.next.config == s.config && r.next.SavedCaps() == s.SavedCaps()
    ensures r.next.speedLimitPose == s.speedLimitPose
    ensures Valid(s) ==> Valid(r.next)
  {
    if s.timerRunning && MovedFarEnough(s.config.value, s.speedLimitPose.value, current) then
      TickOutcome(TickStop(TickSpawn(s)), true)
    else
      TickOutcome(s, false)
  }

  /** Everything that can happen to the behaviour, one event at a time. */
  datatype Event =
    | Initialized(params: ConfigReads)
    | Triggered(input: TriggerInput)
    | Ticked(current: Pose)
    | WorkerRan

  function Step(s: State, e: Event): (r: State)
    requires Valid(s)
    ensures Valid(r)
  {
    match e
    case Initialized(params) => Initialize(s, params)
    case Triggered(input) => RunBehavior(s, input).next
    case Ticked(current) => DistanceCheck(s, current).next
    case WorkerRan => RunWorker(s)
  }

  /** Every state reachable from a valid one satisfies the invariant. */
  function Run(s: State, events: seq<Event>): (r: State)
    requires Valid(s)
    ensures Valid(r)
    decreases |events|
  {
    if |events| == 0 then s else Run(Step(s, events[0]), events[1..])
  }

  /** runBehavior applied to each input in turn. */
  function TriggerAll(s: State, inputs: seq<TriggerInput>): State
    decreases |inputs|
  {
    if |inputs| == 0 then s else TriggerAll(RunBehavior(s, inputs[0]).next, inputs[1..])
  }

  /** Further triggers while limited never touch the saved speeds: they
      perform no read, whatever read outcomes they carry. */
  lemma {:induction false} TriggersKeepSavedSpeeds(s: State, inputs: seq<TriggerInput>)
    requires s.config.Some? && s.limitSet
    ensures TriggerAll(s, inputs).SavedCaps() == s.SavedCaps()
    ensures TriggerAll(s, inputs).limitSet
    ensures TriggerAll(s, inputs).config == s.config
    decreases |inputs|
  {
    if |inputs| > 0 {
      TriggersKeepSavedSpeeds(RunBehavior(s, inputs[0]).next, inputs[1..]);
    }
  }

  /** Round trip: starting unlimited, one trigger followed by any number of
      further triggers and then a restoration puts back the caps read by the
      first trigger; where a read failed, the previously saved value. */
  lemma RestoreAfterTriggers(s: State, first: TriggerInput, rest: seq<TriggerInput>)
    requires s.config.Some? && !s.limitSet
    ensures var t := RemoveSpeedLimit(TriggerAll(RunBehavior(s, first).next, rest));
      && !t.limitSet
      && t.applied.Some?
      && (first.transRead.Some? ==> t.applied.value.trans == first.transRead)
      && (first.rotRead.Some? ==> t.applied.value.rot == first.rotRead)
      && (first.transRead.None? ==> t.applied.value.trans == s.oldTrans)
      && (first.rotRead.None? ==> t.applied.value.rot == s.oldRot)
  {
    TriggersKeepSavedSpeeds(RunBehavior(s, first).next, rest);
  }

  /** Each costmap's clearing polygon depends on that costmap's pose alone:
      two triggers that agree on the global pose clear the same global region
      whatever the local poses, and vice versa. */
  lemma ClearingFramesIndependent(s: State, a: TriggerInput, b: TriggerInput)
    requires s.config.Some?
    ensures a.globalPose == b.globalPose ==>
      RunBehavior(s, a).clearing.value.globalPolygon == RunBehavior(s, b).clearing.value.globalPolygon
    ensures a.localPose == b.localPose ==>
      RunBehavior(s, a).clearing.value.localPolygon == RunBehavior(s, b).clearing.value.localPolygon
  {
  }

  /** Restoring twice is the same as restoring once. */
  lemma RemoveSpeedLimitIdempotent(s: State)
    ensures RemoveSpeedLimit(RemoveSpeedLimit(s)) == RemoveSpeedLimit(s)
  {
  }

  /** With no limit in force, the unguarded restore sends the caps already
      applied and so changes nothing. */
  lemma RemoveSpeedLimitNoOpWhenUnlimited(s: State)
    requires Valid(s) && !s.limitSet && s.applied.Some?
    ensures RemoveSpeedLimit(s) == s
  {
  }

  /** A limit in force is lifted once the robot has moved far enough: the
      next tick (if the timer is still running) followed by the worker thread
      leaves the limit cleared and the saved caps applied. */
  lemma LimitLiftedAfterMoving(s: State, current: Pose)
    requires Valid(s) && s.limitSet
    requires s.timerRunning ==> MovedFarEnough(s.config.value, s.speedLimitPose.value, current)
    ensures var t := RunWorker(DistanceCheck(s, current).next);
      !t.limitSet && !t.timerRunning && t.applied == Some(s.SavedCaps())
  {
  }

  /** A robot that has not moved from the reference pose is released by the
      next tick exactly when the limited distance is zero. */
  lemma TickAtReferencePose(s: State)
    requires Valid(s) && s.timerRunning
    ensures DistanceCheck(s, s.speedLimitPose.value).fired
      <==> s.config.value.limitedDistance == 0.0
  {
    var l := s.config.value.limitedDistance;
    var p := s.speedLimitPose.value;
    if l != 0.0 {
      calc {
        SqDistance(p, p);
      ==
        0.0;
      <
        l * l;
      }
    }
  }

  /** Interleaving allowed by the source: a worker spawned by a tick that has
      not yet taken the mutex when runBehavior fires again lifts the limit
      of the new episode, while the distance timer of that episode keeps
      running. */
  lemma PendingWorkerLiftsRetrigger(s: State, input: TriggerInput)
    requires Valid(s) && s.config.Some? && s.workerPending
    ensures var t := RunWorker(RunBehavior(s, input).next);
      && !t.limitSet
      && t.timerRunning
      && t.applied == Some(t.SavedCaps())
      && t.speedLimitPose == Some(input.globalPose)
  {
  }

  /** The tick is not atomic in the source: distanceCheck holds no lock, so
      between spawning the worker and stopping the timer the worker may
      lift the limit and runBehavior may impose a new one with a new timer.
      The tick then stops that new timer, and the new limit is left with
      neither a timer nor a pending worker to lift it. */
  lemma TickInterleavedWithTrigger(s: State, current: Pose, input: TriggerInput)
    requires Valid(s) && s.timerRunning
    requires MovedFarEnough(s.config.value, s.speedLimitPose.value, current)
    ensures var t := TickStop(RunBehavior(RunWorker(TickSpawn(s)), input).next);
      && t.limitSet && !t.timerRunning && !t.workerPending
      && t.applied == Some(LimitedCaps(s.config.value))
      && !Valid(t)
  {
  }
}

=== FILE: scenarios.dfy ===
/** The behaviour under the default configuration, walked through standing
    still, moving away, clearing around two different poses, re-triggering
    and a failed parameter read. */
module Scenarios {
  import opened Wrappers
  import opened Geometry
  import opened MoveSlowAndClear

  /** The behaviour right after initialize with no parameters set. */
  function Fresh(): (s: State)
    ensures Valid(s) && !s.limitSet && !s.timerRunning && !s.workerPending
    ensures s.config == Some(Config(0.5, 0.25, 0.45, 0.3, "DWAPlannerROS"))
  {
    Initialize(Constructed(), ConfigReads(None, None, None, None, None))
  }

  /** With limited_distance 0.3 a robot that stays at the reference pose
      (squared distance 0 < 0.09) is never released: three ticks leave the
      state exactly as the trigger left it. */
  lemma StandingStillKeepsLimit(input: TriggerInput)
    ensures var s := RunBehavior(Fresh(), input).next;
      var t1 := DistanceCheck(s, input.globalPose);
      var t2 := DistanceCheck(t1.next, input.globalPose);
      var t3 := DistanceCheck(t2.next, input.globalPose);
      && !t1.fired && !t2.fired && !t3.fired
      && t3.next == s && t3.next.limitSet && t3.next.timerRunning
  {
  }

  /** A trigger on the freshly initialised behaviour reaches the limited
      state the tick scenarios start from. */
  lemma TriggerFromFresh(input: TriggerInput)
    ensures var s := RunBehavior(Fresh(), input).next;
      && Valid(s) && s.limitSet && s.timerRunning && !s.workerPending
      && s.config.value.limitedDistance == 0.3
      && s.speedLimitPose == Some(input.globalPose)
      && s.applied == Some(Caps(Some(0.25), Some(0.45)))
  {
  }

  /** With limited_distance 0.3, a robot limited at (1, 2) that has moved
      0.35 m straight ahead (squared distance 0.1225 >= 0.09) is released by
      the next tick, which stops the timer, so a later tick fires nothing
      more; the worker then restores the saved caps. */
  lemma MovingAwayReleasesOnce(s: State)
    requires Valid(s) && s.timerRunning && !s.workerPending
    requires s.config.value.limitedDistance == 0.3
    requires s.speedLimitPose == Some(Pose(1.0, 2.0))
    ensures
      var t1 := DistanceCheck(s, Pose(1.35, 2.0));
      var t2 := DistanceCheck(t1.next, Pose(1.5, 2.0));
      var done := RunWorker(t2.next);
      && t1.fired && !t1.next.timerRunning && t1.next.workerPending
      && !t2.fired && t2.next == t1.next
      && !done.limitSet && done.applied == Some(s.SavedCaps())
  {
  }

  /** A firing tick stops the timer, so the next tick is inert, and the worker
      it spawned restores the saved caps. */
  lemma ReleaseFollowedByWorker(s: State, p: Pose, q: Pose)
    requires Valid(s) && s.timerRunning && !s.workerPending
    requires MovedFarEnough(s.config.value, s.speedLimitPose.value, p)
    ensures
      var t1 := DistanceCheck(s, p);
      var t2 := DistanceCheck(t1.next, q);
      var done := RunWorker(t2.next);
      && t1.fired && !t1.next.timerRunning && t1.next.workerPending
      && !t2.fired && t2.next == t1.next
      && !done.limitSet && done.applied == Some(s.SavedCaps())
  {
  }

  /** Clearing distance 0.5 around global pose (10, 10) and local pose (2, -3):
      each costmap gets the square around its own pose. */
  lemma ClearingAroundEachFrame(s: State)
    requires s.config.Some? && s.config.value.clearingDistance == 0.5
    ensures
      var r := RunBehavior(s, TriggerInput(Pose(10.0, 10.0), Pose(2.0, -3.0), None, None));
      && r.clearing.Some?
      && r.clearing.value.globalPolygon
         == [Point(9.5, 9.5), Point(9.5, 10.5), Point(10.5, 10.5), Point(10.5, 9.5)]
      && r.clearing.value.localPolygon
         == [Point(1.5, -3.5), Point(1.5, -2.5), Point(2.5, -2.5), Point(2.5, -3.5)]
  {
    var input := TriggerInput(Pose(10.0, 10.0), Pose(2.0, -3.0), None, None);
    var r := RunBehavior(s, input);
    assert r.clearing == Some(Clearing(ClearingPolygon(input.globalPose, 0.5), ClearingPolygon(input.localPose, 0.5)));
    SquareAround(10.0, 10.0);
    SquareAround(2.0, -3.0);
  }

  /** The clearing square of distance 0.5 around (x, y). */
  lemma SquareAround(x: real, y: real)
    ensures ClearingPolygon(Pose(x, y), 0.5)
      == [Point(x - 0.5, y - 0.5), Point(x - 0.5, y + 0.5), Point(x + 0.5, y + 0.5), Point(x + 0.5, y - 0.5)]
  {
  }

  /** Two back-to-back triggers: the second, made while the planner holds the
      reduced caps, performs no read, so the saved speeds stay those of the
      first read, and the reference pose is the second trigger's. */
  lemma BackToBackTriggers(p: Pose, q: Pose)
    ensures
      var s1 := RunBehavior(Fresh(), TriggerInput(p, p, Some(0.55), Some(1.0))).next;
      var s2 := RunBehavior(s1, TriggerInput(q, q, Some(0.25), Some(0.45))).next;
      && s2.SavedCaps() == Caps(Some(0.55), Some(1.0))
      && s2.speedLimitPose == Some(q)
      && RemoveSpeedLimit(s2).applied == Some(Caps(Some(0.55), Some(1.0)))
  {
  }

  /** A failed max_trans_vel read does not stop the trigger: the limit is
      still imposed, and the translational speed to restore is left
      unassigned. */
  lemma FailedReadStillLimits(p: Pose)
    ensures
      var s := RunBehavior(Fresh(), TriggerInput(p, p, None, Some(1.0))).next;
      && s.limitSet && s.timerRunning
      && s.applied == Some(Caps(Some(0.25), Some(0.45)))
      && s.SavedCaps() == Caps(None, Some(1.0))
  {
  }
}

=== FILE: wrappers.dfy ===
/** Optional values: a parameter read that may fail, or a C++ member that may
    never have been assigned. */
module Wrappers {

  datatype Option<+T> = None | Some(value: T) {

    /** The encapsulated value, or `default` when there is none. */
    function GetOr(default: T): T
    {
      match this
      case Some(v) => v
      case None => default
    }
  }
}
